=== FILE: README.md ===
# DigitalOcean snapshot rotation: a Dafny model

`do-snap.rb` is a cron job. It makes a backup snapshot of every droplet that
carries a configured tag, and of every volume attached to that droplet. It
then prunes old automatic snapshots. For the droplet itself and for each
attached volume it keeps the newest N snapshots whose names have a line
starting with `auto-` (the first line or any later one). It deletes older
ones, oldest first. Snapshots whose names have no line starting with `auto-`
are never touched. In dry-run mode the job makes the same decisions but sends no
mutating call to the provider.

The model has four modules:

- `Naming` covers `snapshot_name`, the `YYYY-MM-DDTHH:MM:SSZ` UTC stamp inside
  it, and the matcher `snapshot_name_matcher`.
  - The stamp comes with a parser. Formatting and parsing are proved to be
    inverses.
  - A generated name can be split back into the resource name and the instant
    it was built from.
- `Inventory` holds the provider's records as the job reads them: droplets,
  volumes and snapshots.
- `Pruning` covers `cleanup_helper`: select the matching snapshots, sort them
  by creation time, and take the first `count - N`. The sort is a parameter
  (see below).
- `Sweep` covers `create_snapshot`, `cleanup` and `run`.
  - A sweep is a pure function from the droplet listing, the settings and one
    clock reading to a trace of events.
  - An event is a create-droplet-snapshot, create-volume-snapshot or
    delete-snapshot call, plus a flag saying whether it was issued.
  - In dry-run mode the flag is false.

Facts about the code that the model follows:

- **The sort is unstable.** Ruby's `sort_by` gives no order among snapshots
  of equal age, so the model does not commit to one.
  - The sort is a parameter: `Pruning.SelectForDeletion` takes it, and
    `Sweep.Config` carries it for a whole run.
  - Any function that returns its input oldest first, as a permutation, is
    allowed (`Pruning.AgeSort`). Ties may fall in any order, and the order
    may differ from one listing to the next.
  - `Pruning.SortByAge` is one such sort, so the premise can be met.
  - Every property proved about pruning and about a whole run holds for
    every such sort.
  - `ValidDeletion` describes every outcome some oldest-first order yields.
    `Pruning.ValidDeletionCharacterisation` proves that it means exactly that.
  - `Pruning.SortedUnique` shows that, when no two matching snapshots share
    a creation time, every such sort gives the same order. The worked
    example relies on this.
- **The matcher is `/^auto-.*/`.** The stricter timestamp-anchored pattern in
  the comment at `do-snap.rb:35-36` is not in force, so the model uses
  `/^auto-.*/`.
  - Ruby's `^` anchors at the start of any line. `Naming.IsAuto` models that.
  - `Naming.SingleLineMatcher` shows that for names without a newline this
    is exactly a prefix test.
- **The limit and tag are globals.** `cleanup_helper` compares against the
  global `NUM_SNAPSHOTS`, and `run` against the global `TAG`. Neither uses
  the instance variables. Each global is one parameter of the model.
- **A negative limit is handled as Ruby handles it.**
  - `count > N` holds for every count.
  - `first(k)` with `k > count` returns all the snapshots, so every matching
    snapshot is deleted.
  - The model therefore takes any integer limit and needs no precondition
    on it.

## Model

| member | source | states |
|---|---|---|
| Naming.SnapshotName | do-snap.rb:30-32 | every generated name starts with `auto-` (so the matcher accepts it) and is `auto-`, the resource name, `-` and a 20-character stamp long |
| Naming.SplitSnapshotNameRoundTrip | do-snap.rb:30-32 | a generated name determines the resource name and the UTC instant it was built from |
| Naming.SplitSnapshotNameSound | do-snap.rb:30-32 | every name that splits into a resource name and a valid instant is exactly the name `snapshot_name` builds from them |
| Naming.SnapshotNameInjective | do-snap.rb:30-32 | two generated names are equal only for the same resource at the same instant |
| Naming.FormatStamp | do-snap.rb:31 | the `%Y-%m-%dT%H:%M:%SZ` stamp of an instant is 20 characters long |
| Naming.ParseFormatStamp | do-snap.rb:31 | reading the `%Y-%m-%dT%H:%M:%SZ` stamp of an instant gives the instant back |
| Naming.FormatParseStamp | do-snap.rb:31 | every string the stamp reader accepts is the stamp of the instant it reads |
| Naming.IsAuto | do-snap.rb:34-38 | the matcher accepts a name when some line of it starts with `auto-`; in particular every name beginning with `auto-` |
| Naming.SingleLineMatcher | do-snap.rb:34-38 | on a name without a newline the matcher accepts exactly the names beginning with `auto-` |
| Naming.MultiLineNameMatches | do-snap.rb:37 | because `^` anchors at every line, a name whose second line begins with `auto-` is matched although the name does not begin with it |
| Sweep.CreateSnapshots | do-snap.rb:40-59 | the droplet's snapshot first, then one of each attached volume in attachment order and nothing else, each under the name `snapshot_name` gives, every name accepted by the matcher, each issued exactly when not in dry-run mode, no deletion |
| Sweep.VolumeSnapshots | do-snap.rb:49-58 | the k-th event is the snapshot of the k-th attached volume, so one creation per volume in attachment order and no other, each issued exactly when not in dry-run mode |
| Pruning.Matching | do-snap.rb:62-63 | the select step yields only listed snapshots whose names match |
| Pruning.MatchingCounts | do-snap.rb:62-63 | the select step keeps each matching snapshot as often as it is listed and drops every other one |
| Pruning.SortByAge | do-snap.rb:64-66 | the result is oldest first and a permutation of its input |
| Pruning.SortedUnique | do-snap.rb:64-66 | when no two snapshots share a creation time, any two oldest-first permutations of them are equal |
| Pruning.First | do-snap.rb:73 | `first(k)` is a prefix of length k, or the whole array when it is shorter |
| Pruning.RemoveCount | do-snap.rb:70-72 | `count - N` when the count exceeds N and none otherwise; capped at the count it is the number `first` actually removes, and it never exceeds the count when N ≥ 0 |
| Pruning.Excess | do-snap.rb:70-73 | the number removed is `count - N` when the count exceeds N ≥ 0, none when it does not, and every snapshot when N is negative |
| Pruning.SelectForDeletion | do-snap.rb:61-84 | for every admissible sort: only matching snapshots of the listing are deleted; none when at most N match; exactly `count - N` when more than N ≥ 0 match |
| Pruning.SelectionIsValid | do-snap.rb:61-84 | the deletions are oldest first, drawn from the matching snapshots, `Excess` many, and none is newer than any matching snapshot left in place |
| Pruning.ValidDeletionCharacterisation | do-snap.rb:64-73 | a deletion is valid exactly when some oldest-first order of the matches, ties in any order, yields it through `first(count - N)` |
| Pruning.Survivors | do-snap.rb:70-73 | the matches left in place are the newest ones, N of them when more than N ≥ 0 match, all of them when at most N match, and none when N is negative |
| Pruning.DeletedAndSurvivorsPartition | do-snap.rb:70-77 | deleted and surviving snapshots together are exactly the matching ones |
| Pruning.ForeignSnapshotsIgnored | do-snap.rb:62-63 | adding snapshots whose names do not match, before or after the listing, changes no deletion |
| Pruning.DeletedIdsDistinct | do-snap.rb:73-77 | with distinct ids in the listing, no id is deleted twice and every deleted id is in the listing |
| Pruning.ExampleKeepThree | do-snap.rb:61-84 | with N = 3, five matching snapshots of distinct ages listed newest first, and an older manual snapshot, the two oldest matches are deleted, in age order, whichever admissible sort is used |
| Sweep.CleanupHelper | do-snap.rb:61-84 | the k-th event deletes the k-th selected snapshot, so the deletions follow the selection's oldest-first order; every selected snapshot is deleted, each deletion is of a matching snapshot of the listing, none when at most N match, `Excess` many, issued exactly when not in dry-run mode |
| Sweep.CleanupHelperIds | do-snap.rb:73-77 | the ids `cleanup_helper` deletes are exactly the ids of the selected snapshots, all of them ids of the listing |
| Sweep.Listings | do-snap.rb:88-95 | the droplet's own listing first, then the k-th attached volume's listing at position k + 1: one listing per volume, in attachment order, and no other |
| Sweep.CleanupAll | do-snap.rb:86-97 | pruning a list of listings only deletes, and each deletion is issued exactly when not in dry-run mode |
| Sweep.CleanupAllSelected | do-snap.rb:86-97 | every deletion made while pruning a list of listings removes a snapshot the retention rule selects in one of them |
| Sweep.CleanupAllPrunes | do-snap.rb:86-97 | pruning a list of listings deletes every snapshot the retention rule selects in any of them |
| Sweep.Cleanup | do-snap.rb:86-97 | pruning a droplet deletes exactly the snapshots the retention rule selects in its own listing or a volume's: only those, and all of them |
| Sweep.CleanupAllIdsWithin | do-snap.rb:86-97 | pruning a list of listings deletes no id outside those listings |
| Sweep.OwnWindow | do-snap.rb:86-97 | when listings have disjoint ids, the ids deleted from listing k are exactly those the rule selects in listing k alone |
| Sweep.CleanupOwnWindow | do-snap.rb:86-97 | the droplet and each attached volume are each pruned against their own window of N |
| Sweep.DropletEvents | do-snap.rb:101-107 | a droplet gets events exactly when it carries the tag, then including its own snapshot and the deletion of every snapshot the retention rule selects in its own listing or a volume's; every backup precedes every deletion; each is issued exactly when not in dry-run mode |
| Sweep.DropletEventsFrom | do-snap.rb:101-104 | every event for a droplet belongs to that droplet, which carries the tag |
| Sweep.Run | do-snap.rb:99-109 | every event of a run is issued exactly when not in dry-run mode |
| Sweep.RunFrom | do-snap.rb:99-109 | every event belongs to some tagged droplet of the listing: a creation of it or of one of its volumes under the name `snapshot_name` gives, or a deletion the retention rule selects in one of its listings |
| Sweep.RunAppend | do-snap.rb:100-108 | droplets are handled independently, in listing order |
| Sweep.UntaggedSkipped | do-snap.rb:101-107 | a droplet without the tag changes nothing in the run |
| Sweep.NoTaggedDropletNoEvents | do-snap.rb:101-107 | when no droplet carries the tag, the run decides nothing |
| Sweep.TaggedDropletBackedUp | do-snap.rb:101-104 | every tagged droplet gets a snapshot of itself and of each attached volume, named by `snapshot_name` |
| Sweep.TaggedDropletPruned | do-snap.rb:101-104 | every tagged droplet is pruned: each snapshot the retention rule selects in its own listing or an attached volume's is deleted in the run, issued exactly when not in dry-run mode |
| Sweep.DryRunSameDecisions | do-snap.rb:40-84 | dry-run and live runs decide the same calls in the same order |
| Sweep.DropletSameDecisions | do-snap.rb:101-104 | for one droplet, dry-run and live mode decide the same calls in the same order |
| Sweep.CleanupAllSameDecisions | do-snap.rb:74-77 | dry-run and live pruning decide the same deletions in the same order |
| Sweep.DryRunIssuesNothing | do-snap.rb:40-84 | in dry-run mode no call reaches the provider; otherwise every decided call does |

## Left out

- API client I/O is not modelled. Each listing the job fetches is represented
  by the value it returned: all droplets, a droplet's snapshots, a volume
  looked up by id, and a volume's snapshots.
- The listings are the ones read at cleanup time. Snapshots created earlier
  in the same run appear in them only if the provider already lists them;
  the model takes the listings as given.
- Exceptions are not modelled. This covers the rescued `FailedCreate` on
  snapshot creation, errors from `delete` that would abort the run, and
  failing volume lookups. The model assumes every call succeeds.
- Logger output is not modelled, because it carries no decision.
- Reading `API_TOKEN`, `NUM_SNAPSHOTS`, `TAG` and `DRYRUN` from the
  environment is not modelled. The values arrive as `Sweep.Config`.
- Sweep.CreateSnapshots: the sweep uses one clock reading for every name it
  builds. The source reads `Time.now` afresh for each name, so stamps within
  one run could differ by the time between calls.
- Pruning.SortByAge: `created_at` is taken as an already-converted integer
  number of seconds. `Time.parse` and its timezone handling are not
  modelled.
- Naming.ParseFormatStamp: the stamp's fields are checked only against their
  printed ranges. Calendar validity, such as 31 February, is not checked.
- The commented-out stricter matcher at `do-snap.rb:35-36` is not modelled,
  because it is not in force.

=== FILE: inventory.dfy ===
/** The provider's records as the sweep reads them. Every listing the sweep
    fetches (all droplets, a droplet's snapshots, a volume looked up by id and
    its snapshots) is represented here by the value it returned. */
module Inventory {

  type SnapshotId = string
  type VolumeId = string
  type DropletId = int

  /** A snapshot as the provider lists it; `createdAt` is its creation time
      read as whole seconds since the epoch. */
  datatype Snapshot = Snapshot(id: SnapshotId, name: string, createdAt: int)

  /** A block-storage volume as a lookup by id returns it, with the snapshot
      listing fetched for it. */
  datatype Volume = Volume(id: VolumeId, name: string, snapshots: seq<Snapshot>)

  /** A droplet with its tags, its own snapshot listing and its attached
      volumes in attachment order. */
  datatype Droplet = Droplet(
    id: DropletId,
    name: string,
    tags: seq<string>,
    snapshots: seq<Snapshot>,
    volumes: seq<Volume>)

  /** The ids of a snapshot listing, in listing order. */
  function Ids(ss: seq<Snapshot>): (r: seq<SnapshotId>)
    ensures |r| == |ss| && forall k | 0 <= k < |ss| :: r[k] == ss[k].id
  {
    seq(|ss|, k requires 0 <= k < |ss| => ss[k].id)
  }

  /** The ids of a snapshot listing as a set: exactly the entries of `Ids`. */
  function IdSet(ss: seq<Snapshot>): (r: set<SnapshotId>)
    ensures forall id :: id in r <==> id in Ids(ss)
  {
    var r := set s | s in ss :: s.id;
    assert forall id | id in Ids(ss) :: id in r by {
      forall id | id in Ids(ss)
        ensures id in r
      {
        var k :| 0 <= k < |ss| && Ids(ss)[k] == id;
        assert ss[k] in ss;
      }
    }
    r
  }

  /** No id occurs twice. */
  predicate NoDuplicates<T(==)>(xs: seq<T>) {
    forall i, j | 0 <= i < j < |xs| :: xs[i] != xs[j]
  }
}

=== FILE: naming.dfy ===
/** Snapshot naming: the name the sweep gives every snapshot it creates, the
    UTC stamp inside it, and the matcher that decides which existing
    snapshots were created automatically and may therefore be pruned. */
module Naming {

  datatype Option<T> = None | Some(value: T)

  /** Marker every automatically created snapshot name starts with. */
  const AutoPrefix: string := "auto-"

  /** Number of characters of a `YYYY-MM-DDTHH:MM:SSZ` stamp. */
  const StampLength: nat := 20

  predicate StartsWith(s: string, p: string) {
    |p| <= |s| && s[..|p|] == p
  }

  /** Index i begins a line of s: the start of the string or just after a newline. */
  predicate LineStart(s: string, i: int) {
    0 <= i <= |s| && (i == 0 || s[i - 1] == '\n')
  }

  /** The line of s that begins at index i starts with the marker. */
  predicate AutoLineAt(s: string, i: int) {
    LineStart(s, i) && StartsWith(s[i..], AutoPrefix)
  }

  /** The matcher `^auto-` followed by anything. Ruby's `^` anchors at the start of every line,
      so a name matches when any of its lines starts with the marker. */
  predicate IsAuto(name: string)
    ensures StartsWith(name, AutoPrefix) ==> IsAuto(name)
  {
    assert StartsWith(name, AutoPrefix) ==> AutoLineAt(name, 0);
    exists i | 0 <= i <= |name| :: AutoLineAt(name, i)
  }

  /** On single-line names the matcher is exactly a prefix test. */
  lemma SingleLineMatcher(name: string)
    requires '\n' !in name
    ensures IsAuto(name) <==> StartsWith(name, AutoPrefix)
  {
    forall i | 0 < i <= |name|
      ensures !AutoLineAt(name, i)
    {
      assert name[i - 1] in name;
    }
    if StartsWith(name, AutoPrefix) {
      assert IsAuto(name);
    }
  }

  /** The line anchor lets a name that does not start with the marker match
      when a later line does. */
  lemma MultiLineNameMatches()
    ensures IsAuto("db\nauto-x") && !StartsWith("db\nauto-x", AutoPrefix)
  {
    assert AutoLineAt("db\nauto-x", 3);
  }

  /** A UTC instant broken into the fields the stamp prints. */
  datatype DateTime = DateTime(year: int, month: int, day: int, hour: int, minute: int, second: int)

  /** The field ranges for which `%Y-%m-%dT%H:%M:%SZ` prints fixed-width
      fields. Calendar validity (no February 31st) is the clock's concern. */
  predicate InFieldRanges(t: DateTime) {
    && 0 <= t.year <= 9999
    && 1 <= t.month <= 12
    && 1 <= t.day <= 31
    && 0 <= t.hour <= 23
    && 0 <= t.minute <= 59
    && 0 <= t.second <= 60
  }

  predicate IsDigit(c: char) {
    '0' <= c <= '9'
  }

  function Digit(d: int): (c: char)
    requires 0 <= d < 10
    ensures IsDigit(c) && DigitValue(c) == d
  {
    ('0' as int + d) as char
  }

  function DigitValue(c: char): int {
    c as int - '0' as int
  }

  /** The decimal number a string of digits spells, most significant first. */
  function Number(s: string): int {
    if |s| == 0 then 0 else 10 * Number(s[..|s| - 1]) + DigitValue(s[|s| - 1])
  }

  /** n zero-padded to two digits. */
  function Pad2(n: int): (r: string)
    requires 0 <= n < 100
    ensures |r| == 2 && IsDigit(r[0]) && IsDigit(r[1])
    ensures Number(r) == n
  {
    var r := [Digit(n / 10), Digit(n % 10)];
    assert Number(r[..1]) == n / 10 by { assert r[..1][..0] == []; }
    r
  }

  /** n zero-padded to four digits. */
  function Pad4(n: int): (r: string)
    requires 0 <= n < 10000
    ensures |r| == 4 && forall k | 0 <= k < 4 :: IsDigit(r[k])
    ensures Number(r) == n
  {
    var tens := n / 10;
    var hundreds := tens / 10;
    var r := [Digit(hundreds / 10), Digit(hundreds % 10), Digit(tens % 10), Digit(n % 10)];
    assert Number(r[..1]) == hundreds / 10 by { assert r[..1][..0] == []; }
    assert Number(r[..2]) == hundreds by { assert r[..2][..1] == r[..1]; }
    assert Number(r[..3]) == tens by { assert r[..3][..2] == r[..2]; }
    r
  }

  /** The stamp `strftime("%Y-%m-%dT%H:%M:%SZ")` prints for t. */
  function FormatStamp(t: DateTime): (r: string)
    requires InFieldRanges(t)
    ensures |r| == StampLength
  {
    Pad4(t.year) + "-" + Pad2(t.month) + "-" + Pad2(t.day) + "T"
    + Pad2(t.hour) + ":" + Pad2(t.minute) + ":" + Pad2(t.second) + "Z"
  }

  /** Two digits, read back. */
  function ReadPad2(s: string): (r: Option<int>)
    requires |s| == 2
  {
    if IsDigit(s[0]) && IsDigit(s[1]) then Some(Number(s)) else None
  }

  /** Four digits, read back. */
  function ReadPad4(s: string): (r: Option<int>)
    requires |s| == 4
  {
    if IsDigit(s[0]) && IsDigit(s[1]) && IsDigit(s[2]) && IsDigit(s[3]) then Some(Number(s)) else None
  }

  /** Reads a `YYYY-MM-DDTHH:MM:SSZ` stamp; None for anything of another shape
      or with a field out of range. */
  function ParseStamp(s: string): Option<DateTime> {
    if |s| != StampLength then None
    else if s[4] != '-' || s[7] != '-' || s[10] != 'T' || s[13] != ':' || s[16] != ':' || s[19] != 'Z' then None
    else
      var year, month, day := ReadPad4(s[0..4]), ReadPad2(s[5..7]), ReadPad2(s[8..10]);
      var hour, minute, second := ReadPad2(s[11..13]), ReadPad2(s[14..16]), ReadPad2(s[17..19]);
      if year.None? || month.None? || day.None? || hour.None? || minute.None? || second.None? then None
      else
        var t := DateTime(year.value, month.value, day.value, hour.value, minute.value, second.value);
        if InFieldRanges(t) then Some(t) else None
  }

  lemma ReadPad2OfPad2(n: int)
    requires 0 <= n < 100
    ensures ReadPad2(Pad2(n)) == Some(n)
  {
  }

  lemma ReadPad4OfPad4(n: int)
    requires 0 <= n < 10000
    ensures ReadPad4(Pad4(n)) == Some(n)
  {
  }

  lemma {:induction false} Pad2OfReadPad2(s: string)
    requires |s| == 2 && ReadPad2(s).Some?
    ensures 0 <= ReadPad2(s).value < 100 && Pad2(ReadPad2(s).value) == s
  {
    assert Number(s[..1]) == DigitValue(s[0]) by { assert s[..1][..0] == []; }
    var n := Number(s);
    assert n == 10 * DigitValue(s[0]) + DigitValue(s[1]);
    assert n / 10 == DigitValue(s[0]) && n % 10 == DigitValue(s[1]);
  }

  lemma {:induction false} Pad4OfReadPad4(s: string)
    requires |s| == 4 && ReadPad4(s).Some?
    ensures 0 <= ReadPad4(s).value < 10000 && Pad4(ReadPad4(s).value) == s
  {
    var a, b, c, d := DigitValue(s[0]), DigitValue(s[1]), DigitValue(s[2]), DigitValue(s[3]);
    assert Number(s[..1]) == a by { assert s[..1][..0] == []; }
    assert Number(s[..2]) == 10 * a + b by { assert s[..2][..1] == s[..1]; }
    assert Number(s[..3]) == 100 * a + 10 * b + c by { assert s[..3][..2] == s[..2]; }
    var n := Number(s);
    assert n == 1000 * a + 100 * b + 10 * c + d;
    assert n / 10 == 100 * a + 10 * b + c && n % 10 == d;
    assert n / 10 / 10 == 10 * a + b && n / 10 % 10 == c;
    assert n / 10 / 10 / 10 == a && n / 10 / 10 % 10 == b;
  }

  /** Reading a formatted stamp gives back the instant. */
  lemma ParseFormatStamp(t: DateTime)
    requires InFieldRanges(t)
    ensures ParseStamp(FormatStamp(t)) == Some(t)
  {
    var s := FormatStamp(t);
    assert s[0..4] == Pad4(t.year);
    assert s[5..7] == Pad2(t.month);
    assert s[8..10] == Pad2(t.day);
    assert s[11..13] == Pad2(t.hour);
    assert s[14..16] == Pad2(t.minute);
    assert s[17..19] == Pad2(t.second);
    ReadPad4OfPad4(t.year);
    ReadPad2OfPad2(t.month);
    ReadPad2OfPad2(t.day);
    ReadPad2OfPad2(t.hour);
    ReadPad2OfPad2(t.minute);
    ReadPad2OfPad2(t.second);
  }

  /** A string the parser accepts is exactly the formatting of what it read. */
  lemma FormatParseStamp(s: string)
    requires ParseStamp(s).Some?
    ensures InFieldRanges(ParseStamp(s).value) && FormatStamp(ParseStamp(s).value) == s
  {
    var t := ParseStamp(s).value;
    Pad4OfReadPad4(s[0..4]);
    Pad2OfReadPad2(s[5..7]);
    Pad2OfReadPad2(s[8..10]);
    Pad2OfReadPad2(s[11..13]);
    Pad2OfReadPad2(s[14..16]);
    Pad2OfReadPad2(s[17..19]);
    var f := FormatStamp(t);
    assert forall k | 0 <= k < StampLength :: f[k] == s[k];
  }

  /** The name `snapshot_name` gives a snapshot of the resource called
      resourceName, taken at instant now. */
  function SnapshotName(resourceName: string, now: DateTime): (r: string)
    requires InFieldRanges(now)
    ensures StartsWith(r, AutoPrefix) && IsAuto(r)
    ensures |r| == |AutoPrefix| + |resourceName| + 1 + StampLength
  {
    var r := AutoPrefix + resourceName + "-" + FormatStamp(now);
    assert r[..|AutoPrefix|] == AutoPrefix;
    r
  }

  /** Splits an automatically generated name into the resource name and the
      instant of its stamp; None when the name does not have that shape. */
  function SplitSnapshotName(name: string): Option<(string, DateTime)> {
    var fixed := |AutoPrefix| + 1 + StampLength;
    if |name| < fixed || !StartsWith(name, AutoPrefix) || name[|name| - StampLength - 1] != '-' then None
    else
      match ParseStamp(name[|name| - StampLength..])
      case None => None
      case Some(t) => Some((name[|AutoPrefix|..|name| - StampLength - 1], t))
  }

  /** Every generated name can be split back into the resource name and the
      instant it was built from. */
  lemma SplitSnapshotNameRoundTrip(resourceName: string, now: DateTime)
    requires InFieldRanges(now)
    ensures SplitSnapshotName(SnapshotName(resourceName, now)) == Some((resourceName, now))
  {
    var name := SnapshotName(resourceName, now);
    var cut := |name| - StampLength;
    assert name[cut..] == FormatStamp(now);
    assert name[|AutoPrefix|..cut - 1] == resourceName;
    ParseFormatStamp(now);
  }

  /** Conversely, a name that splits is exactly the name built from its parts. */
  lemma SplitSnapshotNameSound(name: string)
    requires SplitSnapshotName(name).Some?
    ensures InFieldRanges(SplitSnapshotName(name).value.1)
    ensures SnapshotName(SplitSnapshotName(name).value.0, SplitSnapshotName(name).value.1) == name
  {
    var cut := |name| - StampLength;
    var stamp := name[cut..];
    var resourceName := name[|AutoPrefix|..cut - 1];
    var now := ParseStamp(stamp).value;
    assert SplitSnapshotName(name).value == (resourceName, now);
    assert InFieldRanges(now) && FormatStamp(now) == stamp by {
      FormatParseStamp(stamp);
    }
    assert name == AutoPrefix + resourceName + "-" + stamp by {
      CutAround(name, |AutoPrefix|, cut - 1);
    }
  }

  /** A string is its head, its middle, the character at j and its tail. */
  lemma CutAround(s: string, i: nat, j: nat)
    requires i <= j < |s|
    ensures s == s[..i] + s[i..j] + [s[j]] + s[j + 1..]
  {
    assert s[j..] == [s[j]] + s[j + 1..];
    assert s == s[..i] + s[i..j] + s[j..];
  }

  /** Names of distinct resources, or of one resource at distinct instants, differ. */
  lemma SnapshotNameInjective(n1: string, t1: DateTime, n2: string, t2: DateTime)
    requires InFieldRanges(t1) && InFieldRanges(t2)
    requires SnapshotName(n1, t1) == SnapshotName(n2, t2)
    ensures n1 == n2 && t1 == t2
  {
    SplitSnapshotNameRoundTrip(n1, t1);
    SplitSnapshotNameRoundTrip(n2, t2);
  }
}

=== FILE: pruning.dfy ===
/** The retention rule of `cleanup_helper`: from one resource's snapshot
    listing keep the automatically named snapshots, order them oldest first,
    and select the oldest ones beyond the retention count for deletion.

    The source orders with an unstable sort, so the order among snapshots of
    equal age is not determined. The sort is therefore a parameter: any
    function that returns its input oldest first (`AgeSort`), ties in any
    order. `SortByAge` is one such function; `ValidDeletion` characterises
    every outcome any of them can give. */
module Pruning {
  import opened Naming
  import opened Inventory

  /** The automatically named snapshots of a listing (the `select` step). */
  function Matching(snaps: seq<Snapshot>): (r: seq<Snapshot>)
    ensures forall s | s in r :: s in snaps && IsAuto(s.name)
  {
    if |snaps| == 0 then []
    else (if IsAuto(snaps[0].name) then [snaps[0]] else []) + Matching(snaps[1..])
  }

  /** The select step keeps every automatically named snapshot, as often as it
      is listed, and nothing else. */
  lemma {:induction false} MatchingCounts(snaps: seq<Snapshot>)
    ensures forall s :: multiset(Matching(snaps))[s] == if IsAuto(s.name) then multiset(snaps)[s] else 0
    ensures multiset(Matching(snaps)) <= multiset(snaps)
  {
    if |snaps| > 0 {
      assert snaps == [snaps[0]] + snaps[1..];
      MatchingCounts(snaps[1..]);
    }
  }

  /** Oldest first: creation times never decrease along the sequence. */
  ghost predicate SortedByAge(o: seq<Snapshot>) {
    forall i, j | 0 <= i < j < |o| :: o[i].createdAt <= o[j].createdAt
  }

  /** Inserts x into an oldest-first sequence, after every snapshot that is
      not newer than x. */
  function Insert(o: seq<Snapshot>, x: Snapshot): (r: seq<Snapshot>)
    requires SortedByAge(o)
    ensures SortedByAge(r)
    ensures multiset(r) == multiset(o) + multiset{x}
  {
    if |o| == 0 then [x]
    else if x.createdAt < o[0].createdAt then [x] + o
    else
      assert o == [o[0]] + o[1..];
      var rest := Insert(o[1..], x);
      forall y | y in rest
        ensures o[0].createdAt <= y.createdAt
      {
        assert y in multiset(rest);
        if y != x {
          assert y in multiset(o[1..]);
        }
      }
      SortedCons(o[0], rest);
      [o[0]] + rest
  }

  /** A snapshot no newer than any of an oldest-first sequence can head it. */
  lemma SortedCons(x: Snapshot, s: seq<Snapshot>)
    requires SortedByAge(s)
    requires forall y | y in s :: x.createdAt <= y.createdAt
    ensures SortedByAge([x] + s)
  {
    var c := [x] + s;
    forall i, j | 0 <= i < j < |c|
      ensures c[i].createdAt <= c[j].createdAt
    {
      assert c[j] == s[j - 1];
      if i > 0 {
        assert c[i] == s[i - 1];
      }
    }
  }

  /** One admissible result of ordering a listing by creation time. */
  function SortByAge(s: seq<Snapshot>): (r: seq<Snapshot>)
    ensures SortedByAge(r)
    ensures multiset(r) == multiset(s)
  {
    if |s| == 0 then []
    else
      assert s == s[..|s| - 1] + [s[|s| - 1]];
      Insert(SortByAge(s[..|s| - 1]), s[|s| - 1])
  }

  /** The sorts Ruby's `sort_by` on creation time may be: every result is
      oldest first and a permutation of the input; ties fall in any order. */
  ghost predicate AgeSort(sort: seq<Snapshot> -> seq<Snapshot>) {
    forall m :: SortedByAge(sort(m)) && multiset(sort(m)) == multiset(m)
  }

  /** The insertion sort is one of them, so the sorts exist. */
  lemma SortByAgeIsAgeSort()
    ensures AgeSort(SortByAge)
  {
    forall m
      ensures SortedByAge(SortByAge(m)) && multiset(SortByAge(m)) == multiset(m)
    {
    }
  }

  /** When no two of them share a creation time, snapshots have a single
      oldest-first order: any two sorts of them agree. */
  lemma {:induction false} SortedUnique(a: seq<Snapshot>, b: seq<Snapshot>)
    requires SortedByAge(a) && SortedByAge(b) && multiset(a) == multiset(b)
    requires DistinctAges(a)
    ensures a == b
  {
    if |a| > 0 {
      SameHead(a, b);
      TailsAgree(a, b);
      SortedUnique(a[1..], b[1..]);
      assert a == [a[0]] + a[1..] && b == [b[0]] + b[1..];
    }
  }

  /** No two snapshots of s share a creation time unless they are equal. */
  ghost predicate DistinctAges(s: seq<Snapshot>) {
    forall x, y | x in s && y in s && x.createdAt == y.createdAt :: x == y
  }

  lemma SameHead(a: seq<Snapshot>, b: seq<Snapshot>)
    requires SortedByAge(a) && SortedByAge(b) && multiset(a) == multiset(b)
    requires DistinctAges(a) && |a| > 0
    ensures |b| > 0 && a[0] == b[0]
  {
    assert |b| > 0 by { assert |multiset(b)| == |multiset(a)|; }
    assert a[0] in multiset(b) && b[0] in multiset(a);
    var j :| 0 <= j < |b| && b[j] == a[0];
    var i :| 0 <= i < |a| && a[i] == b[0];
    assert b[0].createdAt <= a[0].createdAt <= b[0].createdAt;
    assert a[0] in a && a[i] in a;
  }

  lemma TailsAgree(a: seq<Snapshot>, b: seq<Snapshot>)
    requires SortedByAge(a) && SortedByAge(b) && multiset(a) == multiset(b)
    requires DistinctAges(a) && |a| > 0 && |b| > 0 && a[0] == b[0]
    ensures SortedByAge(a[1..]) && SortedByAge(b[1..])
    ensures multiset(a[1..]) == multiset(b[1..]) && DistinctAges(a[1..])
  {
    assert multiset(a) == multiset{a[0]} + multiset(a[1..]) by {
      assert a == [a[0]] + a[1..];
    }
    assert multiset(b) == multiset{b[0]} + multiset(b[1..]) by {
      assert b == [b[0]] + b[1..];
    }
    assert multiset(a[1..]) == multiset(a) - multiset{a[0]};
    assert multiset(b[1..]) == multiset(b) - multiset{b[0]};
    SortedSlices(a, 1);
    SortedSlices(b, 1);
    forall x, y | x in a[1..] && y in a[1..] && x.createdAt == y.createdAt
      ensures x == y
    {
      assert x in a && y in a;
    }
  }

  /** Ruby's `Array#first(k)`: the first k elements, or all of them when there
      are fewer than k. */
  function First(o: seq<Snapshot>, k: nat): (r: seq<Snapshot>)
    ensures |r| == if k <= |o| then k else |o|
    ensures r <= o
  {
    if k <= |o| then o[..k] else o
  }

  /** The number of snapshots the source asks to remove when `count` snapshots
      match and the limit is n: `count - n` when `count > n`, none otherwise. */
  function RemoveCount(count: nat, n: int): (r: nat)
    ensures (if r <= count then r else count) == Excess(count, n)
    ensures n >= 0 ==> r <= count
  {
    if count > n then count - n else 0
  }

  /** How many snapshots are in fact removed: the excess over n, and all of
      them when n is negative. */
  function Excess(count: nat, n: int): (r: nat)
    ensures r <= count
    ensures n >= 0 ==> r + n == count || (r == 0 && count <= n)
    ensures n < 0 ==> r == count
  {
    if count <= n then 0 else if n < 0 then count else count - n
  }

  /** Whatever order is taken, `first(RemoveCount)` removes `Excess` snapshots. */
  lemma FirstRemoveCount(o: seq<Snapshot>, n: int)
    ensures |First(o, RemoveCount(|o|, n))| == Excess(|o|, n)
  {
  }

  /** The orders the source's sort may produce for a listing: the matching
      snapshots, oldest first, with ties in any order. */
  ghost predicate AdmissibleOrder(snaps: seq<Snapshot>, o: seq<Snapshot>) {
    multiset(o) == multiset(Matching(snaps)) && SortedByAge(o)
  }

  /** A correct deletion choice for a listing and limit n, independent of how
      ties are ordered: oldest first, drawn from the matching snapshots, of the
      right size, and no deleted snapshot newer than any surviving match. */
  ghost predicate ValidDeletion(snaps: seq<Snapshot>, n: int, d: seq<Snapshot>) {
    && SortedByAge(d)
    && multiset(d) <= multiset(Matching(snaps))
    && |d| == Excess(|Matching(snaps)|, n)
    && NoneNewer(multiset(d), multiset(Matching(snaps)) - multiset(d))
  }

  /** No snapshot of `older` is newer than any snapshot of `newer`. */
  ghost predicate NoneNewer(older: multiset<Snapshot>, newer: multiset<Snapshot>) {
    forall x, y | x in older && y in newer :: x.createdAt <= y.createdAt
  }

  /** The snapshots `cleanup_helper` deletes, in the order it deletes them,
      when `sort_by` behaves as sort. */
  function SelectForDeletion(sort: seq<Snapshot> -> seq<Snapshot>, snaps: seq<Snapshot>, n: int): (r: seq<Snapshot>)
    requires AgeSort(sort)
    ensures forall s | s in r :: s in snaps && IsAuto(s.name)
    ensures |Matching(snaps)| <= n ==> r == []
    ensures |Matching(snaps)| > n >= 0 ==> |r| == |Matching(snaps)| - n
  {
    var o := sort(Matching(snaps));
    var r := First(o, RemoveCount(|o|, n));
    assert |o| == |Matching(snaps)| by { assert |multiset(o)| == |multiset(Matching(snaps))|; }
    assert forall s | s in r :: s in multiset(Matching(snaps)) by {
      forall s | s in r
        ensures s in multiset(Matching(snaps))
      {
        assert s in o;
      }
    }
    r
  }

  /** The source's selection is a valid deletion, whatever order ties take. */
  lemma SelectionIsValid(sort: seq<Snapshot> -> seq<Snapshot>, snaps: seq<Snapshot>, n: int)
    requires AgeSort(sort)
    ensures ValidDeletion(snaps, n, SelectForDeletion(sort, snaps, n))
  {
    AdmissiblePrefixIsValid(snaps, n, sort(Matching(snaps)));
  }

  /** The matching snapshots left in place, oldest first: the newest ones,
      as many as the limit allows. */
  function Survivors(sort: seq<Snapshot> -> seq<Snapshot>, snaps: seq<Snapshot>, n: int): (r: seq<Snapshot>)
    requires AgeSort(sort)
    ensures multiset(r) <= multiset(Matching(snaps))
    ensures n >= 0 ==> |r| == if |Matching(snaps)| <= n then |Matching(snaps)| else n
    ensures n < 0 ==> r == []
    ensures NoneNewer(multiset(Matching(snaps)) - multiset(r), multiset(r))
  {
    var o := sort(Matching(snaps));
    var k := |First(o, RemoveCount(|o|, n))|;
    assert |o| == |Matching(snaps)| by { assert |multiset(o)| == |multiset(Matching(snaps))|; }
    assert n >= 0 ==> |o[k..]| == if |o| <= n then |o| else n by {
      FirstRemoveCount(o, n);
    }
    SortedCut(o, k);
    o[k..]
  }

  /** What is deleted and what survives together make up exactly the
      matching snapshots: nothing matching is lost or kept twice. */
  lemma DeletedAndSurvivorsPartition(sort: seq<Snapshot> -> seq<Snapshot>, snaps: seq<Snapshot>, n: int)
    requires AgeSort(sort)
    ensures multiset(SelectForDeletion(sort, snaps, n)) + multiset(Survivors(sort, snaps, n)) == multiset(Matching(snaps))
  {
    var o := sort(Matching(snaps));
    var k := |First(o, RemoveCount(|o|, n))|;
    assert multiset(o[..k]) + multiset(o[k..]) == multiset(Matching(snaps)) by {
      assert o == o[..k] + o[k..];
    }
    assert SelectForDeletion(sort, snaps, n) == o[..k];
    assert Survivors(sort, snaps, n) == o[k..];
  }

  /** Cut anywhere, an oldest-first sequence splits into two oldest-first
      parts that together make up the whole, with nothing before the cut newer
      than anything after it. */
  lemma SortedCut(o: seq<Snapshot>, k: int)
    requires SortedByAge(o) && 0 <= k <= |o|
    ensures SortedByAge(o[..k]) && SortedByAge(o[k..])
    ensures multiset(o[..k]) <= multiset(o) && multiset(o[k..]) <= multiset(o)
    ensures multiset(o) - multiset(o[..k]) == multiset(o[k..])
    ensures multiset(o) - multiset(o[k..]) == multiset(o[..k])
    ensures NoneNewer(multiset(o[..k]), multiset(o[k..]))
  {
    assert multiset(o) == multiset(o[..k]) + multiset(o[k..]) by {
      assert o == o[..k] + o[k..];
    }
    SumParts(multiset(o[..k]), multiset(o[k..]));
    SortedSlices(o, k);
    CutNoneNewer(o, k);
  }

  /** Either part of a multiset sum is what remains when the other is taken away. */
  lemma SumParts(a: multiset<Snapshot>, b: multiset<Snapshot>)
    ensures a <= a + b && b <= a + b
    ensures (a + b) - a == b && (a + b) - b == a
  {
  }

  lemma SortedSlices(o: seq<Snapshot>, k: int)
    requires SortedByAge(o) && 0 <= k <= |o|
    ensures SortedByAge(o[..k]) && SortedByAge(o[k..])
  {
    forall i, j | 0 <= i < j < k
      ensures o[..k][i].createdAt <= o[..k][j].createdAt
    {
      assert o[..k][i] == o[i] && o[..k][j] == o[j];
    }
    forall i, j | 0 <= i < j < |o| - k
      ensures o[k..][i].createdAt <= o[k..][j].createdAt
    {
      assert o[k..][i] == o[k + i] && o[k..][j] == o[k + j];
    }
  }

  lemma CutNoneNewer(o: seq<Snapshot>, k: int)
    requires SortedByAge(o) && 0 <= k <= |o|
    ensures NoneNewer(multiset(o[..k]), multiset(o[k..]))
  {
    forall x, y | x in multiset(o[..k]) && y in multiset(o[k..])
      ensures x.createdAt <= y.createdAt
    {
      var i :| 0 <= i < k && o[..k][i] == x;
      var j :| 0 <= j < |o| - k && o[k..][j] == y;
      assert o[i] == x && o[k + j] == y;
    }
  }

  /** Every admissible order yields, through `first(RemoveCount)`, a valid
      deletion: whichever way ties fall, the rule holds. */
  lemma AdmissiblePrefixIsValid(snaps: seq<Snapshot>, n: int, o: seq<Snapshot>)
    requires AdmissibleOrder(snaps, o)
    ensures ValidDeletion(snaps, n, First(o, RemoveCount(|o|, n)))
  {
    var m := Matching(snaps);
    assert |o| == |m| by { assert |multiset(o)| == |multiset(m)|; }
    var d := First(o, RemoveCount(|o|, n));
    assert d == o[..|d|];
    SortedCut(o, |d|);
  }

  /** Removes one occurrence of x, if any. */
  function RemoveOne(s: seq<Snapshot>, x: Snapshot): (r: seq<Snapshot>)
    ensures multiset(r) == multiset(s) - multiset{x}
  {
    if |s| == 0 then []
    else
      assert s == [s[0]] + s[1..];
      if s[0] == x then s[1..] else [s[0]] + RemoveOne(s[1..], x)
  }

  /** Removes one occurrence of each element of d. */
  function RemoveAll(s: seq<Snapshot>, d: seq<Snapshot>): (r: seq<Snapshot>)
    ensures multiset(r) == multiset(s) - multiset(d)
    decreases |d|
  {
    if |d| == 0 then s
    else
      assert d == [d[0]] + d[1..];
      RemoveAll(RemoveOne(s, d[0]), d[1..])
  }

  /** Two oldest-first sequences, the first never newer than the second,
      concatenate to an oldest-first sequence. */
  lemma SortedConcat(a: seq<Snapshot>, b: seq<Snapshot>)
    requires SortedByAge(a) && SortedByAge(b)
    requires forall x, y | x in a && y in b :: x.createdAt <= y.createdAt
    ensures SortedByAge(a + b)
  {
    var c := a + b;
    forall i, j | 0 <= i < j < |c|
      ensures c[i].createdAt <= c[j].createdAt
    {
      if j < |a| {
        assert c[i] == a[i] && c[j] == a[j];
      } else if i >= |a| {
        assert c[i] == b[i - |a|] && c[j] == b[j - |a|];
      } else {
        assert c[i] in a && c[j] in b;
      }
    }
  }

  /** Every valid deletion is what the source deletes under some admissible
      order: the rule admits nothing the source could not do. */
  lemma ValidIsAdmissiblePrefix(snaps: seq<Snapshot>, n: int, d: seq<Snapshot>)
    requires ValidDeletion(snaps, n, d)
    ensures exists o :: AdmissibleOrder(snaps, o) && First(o, RemoveCount(|o|, n)) == d
  {
    var m := Matching(snaps);
    var o := Completion(m, d);
    CompletionFacts(m, d);
    assert |o| == |m| by { assert |multiset(o)| == |multiset(m)|; }
    FirstRemoveCount(o, n);
    assert First(o, RemoveCount(|o|, n)) == d;
    assert AdmissibleOrder(snaps, o);
  }

  /** d followed by the rest of m, oldest first. */
  function Completion(m: seq<Snapshot>, d: seq<Snapshot>): seq<Snapshot> {
    d + SortByAge(RemoveAll(m, d))
  }

  lemma CompletionFacts(m: seq<Snapshot>, d: seq<Snapshot>)
    requires SortedByAge(d) && multiset(d) <= multiset(m)
    requires NoneNewer(multiset(d), multiset(m) - multiset(d))
    ensures SortedByAge(Completion(m, d))
    ensures multiset(Completion(m, d)) == multiset(m)
    ensures Completion(m, d)[..|d|] == d
  {
    var rest := SortByAge(RemoveAll(m, d));
    assert multiset(rest) == multiset(m) - multiset(d);
    assert SortedByAge(d + rest) by {
      forall x, y | x in d && y in rest
        ensures x.createdAt <= y.createdAt
      {
        assert x in multiset(d) && y in multiset(rest);
      }
      SortedConcat(d, rest);
    }
    assert multiset(d + rest) == multiset(m) by {
      assert multiset(d + rest) == multiset(d) + multiset(rest);
      SubParts(multiset(d), multiset(m));
    }
    assert (d + rest)[..|d|] == d;
  }

  /** Taking a part away and adding it back gives the whole. */
  lemma SubParts(a: multiset<Snapshot>, b: multiset<Snapshot>)
    requires a <= b
    ensures a + (b - a) == b
  {
  }

  /** The deletions the source may make, over every order its sort may
      produce, are exactly the valid deletions. */
  lemma ValidDeletionCharacterisation(snaps: seq<Snapshot>, n: int, d: seq<Snapshot>)
    ensures ValidDeletion(snaps, n, d) <==> exists o :: AdmissibleOrder(snaps, o) && First(o, RemoveCount(|o|, n)) == d
  {
    if ValidDeletion(snaps, n, d) {
      ValidIsAdmissiblePrefix(snaps, n, d);
    }
    if exists o :: AdmissibleOrder(snaps, o) && First(o, RemoveCount(|o|, n)) == d {
      var o :| AdmissibleOrder(snaps, o) && First(o, RemoveCount(|o|, n)) == d;
      AdmissiblePrefixIsValid(snaps, n, o);
    }
  }

  /** Adding snapshots that are not automatically named changes nothing, however
      many there are and however old they are. */
  lemma {:induction false} ForeignSnapshotsIgnored(sort: seq<Snapshot> -> seq<Snapshot>, snaps: seq<Snapshot>, foreign: seq<Snapshot>, n: int)
    requires AgeSort(sort)
    requires forall s | s in foreign :: !IsAuto(s.name)
    ensures SelectForDeletion(sort, snaps + foreign, n) == SelectForDeletion(sort, snaps, n)
    ensures SelectForDeletion(sort, foreign + snaps, n) == SelectForDeletion(sort, snaps, n)
  {
    MatchingAppend(snaps, foreign);
    MatchingAppend(foreign, snaps);
    MatchingNone(foreign);
    assert Matching(snaps) + [] == Matching(snaps);
    assert [] + Matching(snaps) == Matching(snaps);
  }

  lemma {:induction false} MatchingAppend(a: seq<Snapshot>, b: seq<Snapshot>)
    ensures Matching(a + b) == Matching(a) + Matching(b)
  {
    if |a| == 0 {
      assert a + b == b;
    } else {
      assert (a + b)[1..] == a[1..] + b;
      MatchingAppend(a[1..], b);
    }
  }

  lemma {:induction false} MatchingNone(s: seq<Snapshot>)
    requires forall x | x in s :: !IsAuto(x.name)
    ensures Matching(s) == []
  {
    if |s| > 0 {
      assert s[0] in s;
      MatchingNone(s[1..]);
    }
  }

  /** A sub-multiset of a listing with pairwise distinct ids has pairwise
      distinct ids. */
  lemma {:induction false} NoDuplicatesNoRepeats(s: seq<Snapshot>)
    requires NoDuplicates(Ids(s))
    ensures forall x :: multiset(s)[x] <= 1
  {
    if |s| > 0 {
      assert s == [s[0]] + s[1..];
      assert Ids(s[1..]) == Ids(s)[1..];
      NoDuplicatesNoRepeats(s[1..]);
      forall j | 0 <= j < |s| - 1
        ensures s[1..][j] != s[0]
      {
        assert Ids(s)[0] != Ids(s)[j + 1];
      }
      assert s[0] !in s[1..];
    }
  }

  lemma RepeatCounted(s: seq<Snapshot>, i: int, j: int)
    requires 0 <= i < j < |s| && s[i] == s[j]
    ensures multiset(s)[s[i]] >= 2
  {
    assert s == s[..j] + [s[j]] + s[j + 1..];
    assert s[i] in s[..j];
  }

  /** Each snapshot id is deleted at most once, and only ids of the listing
      are deleted. */
  lemma DeletedIdsDistinct(sort: seq<Snapshot> -> seq<Snapshot>, snaps: seq<Snapshot>, n: int)
    requires AgeSort(sort) && NoDuplicates(Ids(snaps))
    ensures NoDuplicates(Ids(SelectForDeletion(sort, snaps, n)))
    ensures forall id | id in Ids(SelectForDeletion(sort, snaps, n)) :: id in Ids(snaps)
  {
    var d := SelectForDeletion(sort, snaps, n);
    assert multiset(d) <= multiset(Matching(snaps)) by {
      SelectionIsValid(sort, snaps, n);
    }
    MatchingCounts(snaps);
    SubMultisetIds(d, snaps);
  }

  /** Drawing from a listing with distinct ids keeps ids distinct and adds no id. */
  lemma SubMultisetIds(d: seq<Snapshot>, s: seq<Snapshot>)
    requires NoDuplicates(Ids(s)) && multiset(d) <= multiset(s)
    ensures NoDuplicates(Ids(d))
    ensures forall id | id in Ids(d) :: id in Ids(s)
  {
    NoDuplicatesNoRepeats(s);
    forall i, j | 0 <= i < j < |d|
      ensures d[i].id != d[j].id
    {
      assert d[i] in multiset(s) && d[j] in multiset(s);
      if d[i] == d[j] {
        RepeatCounted(d, i, j);
      } else {
        var a :| 0 <= a < |s| && s[a] == d[i];
        var b :| 0 <= b < |s| && s[b] == d[j];
        assert Ids(s)[a] != Ids(s)[b];
      }
    }
    forall id | id in Ids(d)
      ensures id in Ids(s)
    {
      var k :| 0 <= k < |d| && Ids(d)[k] == id;
      assert d[k] in multiset(s);
      var a :| 0 <= a < |s| && s[a] == d[k];
      assert Ids(s)[a] == id;
    }
  }

  /** With three to keep, five matching snapshots created on successive days
      and listed newest first lose the two oldest, whichever sort is used; a
      manually named snapshot listed after them, older than all of them, is
      untouched. */
  lemma ExampleKeepThree(sort: seq<Snapshot> -> seq<Snapshot>, s1: Snapshot, s2: Snapshot, s3: Snapshot, s4: Snapshot, s5: Snapshot, manual: Snapshot)
    requires AgeSort(sort)
    requires IsAuto(s1.name) && IsAuto(s2.name) && IsAuto(s3.name) && IsAuto(s4.name) && IsAuto(s5.name)
    requires !IsAuto(manual.name)
    requires manual.createdAt < s1.createdAt < s2.createdAt < s3.createdAt < s4.createdAt < s5.createdAt
    ensures SelectForDeletion(sort, [s5, s4, s3, s2, s1, manual], 3) == [s1, s2]
  {
    var m := [s5] + [s4] + [s3] + [s2] + [s1];
    assert SelectForDeletion(sort, [s5, s4, s3, s2, s1, manual], 3) == SelectForDeletion(sort, m, 3) by {
      assert [s5, s4, s3, s2, s1, manual] == m + [manual];
      assert forall s | s in [manual] :: !IsAuto(s.name);
      ForeignSnapshotsIgnored(sort, m, [manual], 3);
    }
    ExampleSelect(sort, s1, s2, s3, s4, s5);
  }

  lemma ExampleSelect(sort: seq<Snapshot> -> seq<Snapshot>, s1: Snapshot, s2: Snapshot, s3: Snapshot, s4: Snapshot, s5: Snapshot)
    requires AgeSort(sort)
    requires IsAuto(s1.name) && IsAuto(s2.name) && IsAuto(s3.name) && IsAuto(s4.name) && IsAuto(s5.name)
    requires s1.createdAt < s2.createdAt < s3.createdAt < s4.createdAt < s5.createdAt
    ensures SelectForDeletion(sort, [s5] + [s4] + [s3] + [s2] + [s1], 3) == [s1, s2]
  {
    var m := [s5] + [s4] + [s3] + [s2] + [s1];
    assert Matching(m) == m by {
      MatchingAll(m);
    }
    var o := sort(m);
    assert o == [s1, s2, s3, s4, s5] by {
      ExampleOrder(o, s1, s2, s3, s4, s5);
    }
    ExampleFirst(o, s1, s2, s3, s4, s5);
  }

  lemma ExampleFirst(o: seq<Snapshot>, s1: Snapshot, s2: Snapshot, s3: Snapshot, s4: Snapshot, s5: Snapshot)
    requires o == [s1, s2, s3, s4, s5]
    ensures First(o, RemoveCount(|o|, 3)) == [s1, s2]
  {
    assert o[..2] == [s1, s2];
  }

  /** The only oldest-first order of five snapshots of distinct ages. */
  lemma ExampleOrder(o: seq<Snapshot>, s1: Snapshot, s2: Snapshot, s3: Snapshot, s4: Snapshot, s5: Snapshot)
    requires s1.createdAt < s2.createdAt < s3.createdAt < s4.createdAt < s5.createdAt
    requires SortedByAge(o) && multiset(o) == multiset([s5] + [s4] + [s3] + [s2] + [s1])
    ensures o == [s1, s2, s3, s4, s5]
  {
    var sorted := [s1] + ([s2] + ([s3] + ([s4] + [s5])));
    assert SortedByAge(sorted) && DistinctAges(sorted) by {
      ExampleStrict(s1, s2, s3, s4, s5);
      StrictlyOlderSorted(sorted);
    }
    assert multiset(sorted) == multiset(o);
    SortedUnique(sorted, o);
    assert sorted == [s1, s2, s3, s4, s5];
  }

  lemma ExampleStrict(s1: Snapshot, s2: Snapshot, s3: Snapshot, s4: Snapshot, s5: Snapshot)
    requires s1.createdAt < s2.createdAt < s3.createdAt < s4.createdAt < s5.createdAt
    ensures StrictlyOlder([s1] + ([s2] + ([s3] + ([s4] + [s5]))))
  {
    StrictCons(s4, [s5]);
    StrictCons(s3, [s4] + [s5]);
    StrictCons(s2, [s3] + ([s4] + [s5]));
    StrictCons(s1, [s2] + ([s3] + ([s4] + [s5])));
  }

  /** Creation times strictly increase along the sequence. */
  ghost predicate StrictlyOlder(s: seq<Snapshot>) {
    forall i, j | 0 <= i < j < |s| :: s[i].createdAt < s[j].createdAt
  }

  lemma StrictCons(x: Snapshot, s: seq<Snapshot>)
    requires StrictlyOlder(s) && forall y | y in s :: x.createdAt < y.createdAt
    ensures StrictlyOlder([x] + s)
  {
    var c := [x] + s;
    forall i, j | 0 <= i < j < |c|
      ensures c[i].createdAt < c[j].createdAt
    {
      assert c[j] == s[j - 1];
      if i > 0 {
        assert c[i] == s[i - 1];
      }
    }
  }

  lemma StrictlyOlderSorted(s: seq<Snapshot>)
    requires StrictlyOlder(s)
    ensures SortedByAge(s) && DistinctAges(s)
  {
    forall x, y | x in s && y in s && x.createdAt == y.createdAt
      ensures x == y
    {
      var i :| 0 <= i < |s| && s[i] == x;
      var j :| 0 <= j < |s| && s[j] == y;
      assert i == j;
    }
  }

  lemma {:induction false} MatchingAll(s: seq<Snapshot>)
    requires forall x | x in s :: IsAuto(x.name)
    ensures Matching(s) == s
  {
    if |s| > 0 {
      assert s[0] in s;
      MatchingAll(s[1..]);
      assert s == [s[0]] + s[1..];
    }
  }

}

=== FILE: sweep.dfy ===
/** One run of the sweep (`DOSnap#run`): every droplet carrying the tag is
    backed up (a snapshot of the droplet, then one of each attached volume)
    and then pruned (its own snapshots, then each volume's, each against its
    own retention window). The provider calls become a trace of events; each
    event records the call decided and whether it was actually issued, which
    is exactly what dry-run mode changes. */
module Sweep {
  import opened Naming
  import opened Inventory
  import opened Pruning

  /** What a sweep runs with: the retention count (the source reads the global
      `NUM_SNAPSHOTS`, the same value the object is built with), the tag that
      selects droplets, dry-run mode, and the order `sort_by` gives a listing,
      which may be any `AgeSort`: ties among snapshots of equal age fall in
      whatever order the sort leaves them. */
  datatype Config = Config(retain: int, tag: string, dryRun: bool, sort: seq<Snapshot> -> seq<Snapshot>)

  /** A mutating provider call. */
  datatype Action =
    | CreateDropletSnapshot(droplet: DropletId, name: string)
    | CreateVolumeSnapshot(volume: VolumeId, name: string)
    | DeleteSnapshot(snapshot: SnapshotId)

  /** A decided call; `issued` is false when dry-run mode suppressed it. */
  datatype Event = Event(action: Action, issued: bool)

  /** The calls of a trace, in order, whether issued or not. */
  function Actions(trace: seq<Event>): (r: seq<Action>)
    ensures |r| == |trace|
  {
    seq(|trace|, k requires 0 <= k < |trace| => trace[k].action)
  }

  /** The calls of a trace that reached the provider, in order. */
  function Calls(trace: seq<Event>): seq<Action> {
    if |trace| == 0 then []
    else (if trace[0].issued then [trace[0].action] else []) + Calls(trace[1..])
  }

  /** The snapshot ids a trace deletes. */
  function DeletedIds(trace: seq<Event>): set<SnapshotId> {
    set e | e in trace && e.action.DeleteSnapshot? :: e.action.snapshot
  }

  /** `create_snapshot`: a snapshot of the droplet, then one of each attached
      volume in attachment order, each named by `snapshot_name`. */
  function CreateSnapshots(d: Droplet, now: DateTime, dryRun: bool): (r: seq<Event>)
    requires InFieldRanges(now)
    ensures |r| == 1 + |d.volumes|
    ensures r[0] == Event(CreateDropletSnapshot(d.id, SnapshotName(d.name, now)), !dryRun)
    ensures forall k | 0 <= k < |d.volumes| :: r[k + 1] == VolumeSnapshot(d.volumes[k], now, dryRun)
    ensures forall e | e in r :: e.issued == !dryRun && !e.action.DeleteSnapshot? && IsAuto(e.action.name)
    ensures Event(CreateDropletSnapshot(d.id, SnapshotName(d.name, now)), !dryRun) in r
    ensures forall v | v in d.volumes :: VolumeSnapshot(v, now, dryRun) in r
    ensures forall e | e in r ::
      e == Event(CreateDropletSnapshot(d.id, SnapshotName(d.name, now)), !dryRun) || exists v | v in d.volumes :: e == VolumeSnapshot(v, now, dryRun)
  {
    [Event(CreateDropletSnapshot(d.id, SnapshotName(d.name, now)), !dryRun)] + VolumeSnapshots(d.volumes, now, dryRun)
  }

  /** The creation of a snapshot of volume v. */
  function VolumeSnapshot(v: Volume, now: DateTime, dryRun: bool): Event
    requires InFieldRanges(now)
  {
    Event(CreateVolumeSnapshot(v.id, SnapshotName(v.name, now)), !dryRun)
  }

  /** One snapshot per volume, in attachment order (the loop of
      `create_snapshot`). */
  function VolumeSnapshots(vs: seq<Volume>, now: DateTime, dryRun: bool): (r: seq<Event>)
    requires InFieldRanges(now)
    ensures |r| == |vs|
    ensures forall k | 0 <= k < |vs| :: r[k] == VolumeSnapshot(vs[k], now, dryRun)
    ensures forall e | e in r :: e.issued == !dryRun && e.action.CreateVolumeSnapshot? && IsAuto(e.action.name)
    ensures forall v | v in vs :: VolumeSnapshot(v, now, dryRun) in r
    ensures forall e | e in r :: exists v | v in vs :: e == VolumeSnapshot(v, now, dryRun)
  {
    if |vs| == 0 then []
    else
      var tail := VolumeSnapshots(vs[1..], now, dryRun);
      var r := [VolumeSnapshot(vs[0], now, dryRun)] + tail;
      assert forall v | v in vs :: VolumeSnapshot(v, now, dryRun) in r by {
        forall v | v in vs
          ensures VolumeSnapshot(v, now, dryRun) in r
        {
          var k :| 0 <= k < |vs| && vs[k] == v;
          if k > 0 {
            assert v == vs[1..][k - 1];
          }
        }
      }
      assert forall e | e in r :: exists v | v in vs :: e == VolumeSnapshot(v, now, dryRun) by {
        forall e | e in r
          ensures exists v | v in vs :: e == VolumeSnapshot(v, now, dryRun)
        {
          if e in tail {
            var v :| v in vs[1..] && e == VolumeSnapshot(v, now, dryRun);
            assert v in vs;
          } else {
            assert vs[0] in vs;
          }
        }
      }
      r
  }

  /** `cleanup_helper`: one deletion per selected snapshot, oldest first. */
  function CleanupHelper(snaps: seq<Snapshot>, cfg: Config): (r: seq<Event>)
    requires AgeSort(cfg.sort)
    ensures forall e | e in r :: e.action.DeleteSnapshot? && e.issued == !cfg.dryRun
    ensures forall e | e in r :: exists s | s in snaps :: IsAuto(s.name) && s.id == e.action.snapshot
    ensures |Matching(snaps)| <= cfg.retain ==> r == []
    ensures |r| == Excess(|Matching(snaps)|, cfg.retain)
    ensures |r| == |SelectForDeletion(cfg.sort, snaps, cfg.retain)|
    ensures forall k | 0 <= k < |r| ::
      r[k] == Event(DeleteSnapshot(SelectForDeletion(cfg.sort, snaps, cfg.retain)[k].id), !cfg.dryRun)
    ensures forall s | s in SelectForDeletion(cfg.sort, snaps, cfg.retain) :: Event(DeleteSnapshot(s.id), !cfg.dryRun) in r
  {
    var d := SelectForDeletion(cfg.sort, snaps, cfg.retain);
    assert |d| == Excess(|Matching(snaps)|, cfg.retain) by {
      SelectionIsValid(cfg.sort, snaps, cfg.retain);
    }
    var r := seq(|d|, k requires 0 <= k < |d| => Event(DeleteSnapshot(d[k].id), !cfg.dryRun));
    DeletesEach(d, r, !cfg.dryRun);
    r
  }

  /** A trace with one deletion per snapshot of d deletes each of them. */
  lemma DeletesEach(d: seq<Snapshot>, r: seq<Event>, issued: bool)
    requires |r| == |d|
    requires forall k | 0 <= k < |d| :: r[k] == Event(DeleteSnapshot(d[k].id), issued)
    ensures forall s | s in d :: Event(DeleteSnapshot(s.id), issued) in r
  {
    forall s | s in d
      ensures Event(DeleteSnapshot(s.id), issued) in r
    {
      var k :| 0 <= k < |d| && d[k] == s;
      assert r[k] == Event(DeleteSnapshot(s.id), issued);
    }
  }

  /** The listings a droplet is pruned over: its own, then each attached
      volume's, in attachment order. */
  function Listings(d: Droplet): (r: seq<seq<Snapshot>>)
    ensures |r| == 1 + |d.volumes| && r[0] == d.snapshots
    ensures forall k | 0 <= k < |d.volumes| :: r[k + 1] == d.volumes[k].snapshots
    ensures forall v | v in d.volumes :: v.snapshots in r
    ensures forall l | l in r :: l == d.snapshots || exists v | v in d.volumes :: l == v.snapshots
  {
    var volumes := seq(|d.volumes|, k requires 0 <= k < |d.volumes| => d.volumes[k].snapshots);
    assert forall v | v in d.volumes :: v.snapshots in volumes by {
      forall v | v in d.volumes
        ensures v.snapshots in volumes
      {
        var k :| 0 <= k < |d.volumes| && d.volumes[k] == v;
        assert volumes[k] == v.snapshots;
      }
    }
    assert forall l | l in volumes :: exists v | v in d.volumes :: l == v.snapshots by {
      forall l | l in volumes
        ensures exists v | v in d.volumes :: l == v.snapshots
      {
        var k :| 0 <= k < |volumes| && volumes[k] == l;
        assert d.volumes[k] in d.volumes;
      }
    }
    [d.snapshots] + volumes
  }

  /** Some listing of ls selects a snapshot with this id for deletion. */
  ghost predicate SelectedIn(ls: seq<seq<Snapshot>>, sort: seq<Snapshot> -> seq<Snapshot>, n: int, id: SnapshotId)
    requires AgeSort(sort)
  {
    exists l, s | l in ls && s in SelectForDeletion(sort, l, n) :: s.id == id
  }

  /** The trace deletes every snapshot the retention rule selects in any
      listing of ls, issued exactly when not in dry-run mode. */
  ghost predicate PrunesAll(trace: seq<Event>, ls: seq<seq<Snapshot>>, cfg: Config)
    requires AgeSort(cfg.sort)
  {
    forall l, s | l in ls && s in SelectForDeletion(cfg.sort, l, cfg.retain) ::
      Event(DeleteSnapshot(s.id), !cfg.dryRun) in trace
  }

  /** `cleanup_helper` applied to each listing in turn. */
  function CleanupAll(ls: seq<seq<Snapshot>>, cfg: Config): (r: seq<Event>)
    requires AgeSort(cfg.sort)
    ensures forall e | e in r :: e.action.DeleteSnapshot? && e.issued == !cfg.dryRun
  {
    if |ls| == 0 then [] else CleanupHelper(ls[0], cfg) + CleanupAll(ls[1..], cfg)
  }

  /** Every deletion made over a list of listings is one the retention rule
      selects in one of them. */
  lemma {:induction false} CleanupAllSelected(ls: seq<seq<Snapshot>>, cfg: Config)
    requires AgeSort(cfg.sort)
    ensures forall e | e in CleanupAll(ls, cfg) :: SelectedIn(ls, cfg.sort, cfg.retain, e.action.snapshot)
  {
    if |ls| > 0 {
      var head, tail := CleanupHelper(ls[0], cfg), CleanupAll(ls[1..], cfg);
      CleanupAllSelected(ls[1..], cfg);
      forall e | e in head
        ensures SelectedIn(ls, cfg.sort, cfg.retain, e.action.snapshot)
      {
        var k :| 0 <= k < |head| && head[k] == e;
        assert ls[0] in ls && SelectForDeletion(cfg.sort, ls[0], cfg.retain)[k] in SelectForDeletion(cfg.sort, ls[0], cfg.retain);
      }
      forall e | e in tail
        ensures SelectedIn(ls, cfg.sort, cfg.retain, e.action.snapshot)
      {
        var l, s :| l in ls[1..] && s in SelectForDeletion(cfg.sort, l, cfg.retain) && s.id == e.action.snapshot;
        assert l in ls;
      }
    }
  }

  /** Pruning a list of listings makes every deletion the rule selects in any
      of them. */
  lemma {:induction false} CleanupAllPrunes(ls: seq<seq<Snapshot>>, cfg: Config)
    requires AgeSort(cfg.sort)
    ensures PrunesAll(CleanupAll(ls, cfg), ls, cfg)
  {
    if |ls| > 0 {
      var head, tail := CleanupHelper(ls[0], cfg), CleanupAll(ls[1..], cfg);
      CleanupAllPrunes(ls[1..], cfg);
      forall l, s | l in ls && s in SelectForDeletion(cfg.sort, l, cfg.retain)
        ensures Event(DeleteSnapshot(s.id), !cfg.dryRun) in head + tail
      {
        if l != ls[0] {
          var k :| 0 <= k < |ls| && ls[k] == l;
          assert l == ls[1..][k - 1];
        }
      }
    }
  }

  /** `cleanup`: prune the droplet's snapshots, then each volume's. */
  function Cleanup(d: Droplet, cfg: Config): (r: seq<Event>)
    requires AgeSort(cfg.sort)
    ensures forall e | e in r :: e.action.DeleteSnapshot? && e.issued == !cfg.dryRun
    ensures forall e | e in r :: SelectedIn(Listings(d), cfg.sort, cfg.retain, e.action.snapshot)
    ensures PrunesAll(r, Listings(d), cfg)
  {
    CleanupAllSelected(Listings(d), cfg);
    CleanupAllPrunes(Listings(d), cfg);
    CleanupAll(Listings(d), cfg)
  }

  /** The events one droplet contributes to a run: backup and pruning when it
      carries the tag, nothing otherwise. Backup comes first: no creation
      follows a deletion. */
  function DropletEvents(d: Droplet, cfg: Config, now: DateTime): (r: seq<Event>)
    requires AgeSort(cfg.sort)
    requires InFieldRanges(now)
    ensures forall e | e in r :: e.issued == !cfg.dryRun
    ensures cfg.tag in d.tags <==> |r| > 0
    ensures cfg.tag in d.tags ==> Event(CreateDropletSnapshot(d.id, SnapshotName(d.name, now)), !cfg.dryRun) in r
    ensures cfg.tag in d.tags ==> PrunesAll(r, Listings(d), cfg)
    ensures forall i, j | 0 <= i < j < |r| && r[i].action.DeleteSnapshot? :: r[j].action.DeleteSnapshot?
  {
    if cfg.tag in d.tags then
      var c, p := CreateSnapshots(d, now, cfg.dryRun), Cleanup(d, cfg);
      assert PrunesAll(c + p, Listings(d), cfg) by {
        assert forall e | e in p :: e in c + p;
      }
      c + p
    else []
  }

  /** The event e is one the sweep may take for droplet d: d carries the tag,
      the event is issued exactly when not in dry-run mode, a creation targets d
      or one of its volumes under the name `snapshot_name` gives it, and a
      deletion removes a snapshot the retention rule selects in one of d's
      listings. */
  ghost predicate FromDroplet(e: Event, d: Droplet, cfg: Config, now: DateTime)
    requires AgeSort(cfg.sort)
    requires InFieldRanges(now)
  {
    && cfg.tag in d.tags
    && e.issued == !cfg.dryRun
    && match e.action
       case CreateDropletSnapshot(id, name) => id == d.id && name == SnapshotName(d.name, now)
       case CreateVolumeSnapshot(id, name) =>
         exists v | v in d.volumes :: id == v.id && name == SnapshotName(v.name, now)
       case DeleteSnapshot(id) => SelectedIn(Listings(d), cfg.sort, cfg.retain, id)
  }

  lemma DropletEventsFrom(d: Droplet, cfg: Config, now: DateTime)
    requires AgeSort(cfg.sort)
    requires InFieldRanges(now)
    ensures forall e | e in DropletEvents(d, cfg, now) :: FromDroplet(e, d, cfg, now)
  {
    if cfg.tag in d.tags {
      var c := CreateSnapshots(d, now, cfg.dryRun);
      forall e | e in c
        ensures FromDroplet(e, d, cfg, now)
      {
        if e != Event(CreateDropletSnapshot(d.id, SnapshotName(d.name, now)), !cfg.dryRun) {
          var v :| v in d.volumes && e == VolumeSnapshot(v, now, cfg.dryRun);
        }
      }
    }
  }

  /** `run`: every droplet in listing order. */
  function Run(droplets: seq<Droplet>, cfg: Config, now: DateTime): (r: seq<Event>)
    requires AgeSort(cfg.sort)
    requires InFieldRanges(now)
    ensures forall e | e in r :: e.issued == !cfg.dryRun
  {
    if |droplets| == 0 then []
    else DropletEvents(droplets[0], cfg, now) + Run(droplets[1..], cfg, now)
  }

  /** Every event of a run belongs to a droplet of the listing that carries
      the tag: a creation of it or of one of its volumes under the name
      `snapshot_name` gives, or a deletion the retention rule selects in one
      of its listings. */
  lemma {:induction false} RunFrom(droplets: seq<Droplet>, cfg: Config, now: DateTime)
    requires AgeSort(cfg.sort)
    requires InFieldRanges(now)
    ensures forall e | e in Run(droplets, cfg, now) :: exists d | d in droplets :: FromDroplet(e, d, cfg, now)
  {
    if |droplets| > 0 {
      var head, tail := DropletEvents(droplets[0], cfg, now), Run(droplets[1..], cfg, now);
      DropletEventsFrom(droplets[0], cfg, now);
      RunFrom(droplets[1..], cfg, now);
      assert droplets[0] in droplets;
      forall e | e in tail
        ensures exists d | d in droplets :: FromDroplet(e, d, cfg, now)
      {
        var d :| d in droplets[1..] && FromDroplet(e, d, cfg, now);
        assert d in droplets;
      }
    }
  }

  /** A run over two lists of droplets is the run over the first followed by
      the run over the second: droplets are handled independently, in order. */
  lemma {:induction false} RunAppend(a: seq<Droplet>, b: seq<Droplet>, cfg: Config, now: DateTime)
    requires AgeSort(cfg.sort)
    requires InFieldRanges(now)
    ensures Run(a + b, cfg, now) == Run(a, cfg, now) + Run(b, cfg, now)
  {
    if |a| == 0 {
      assert a + b == b;
    } else {
      var first := DropletEvents(a[0], cfg, now);
      assert (a + b)[0] == a[0];
      assert (a + b)[1..] == a[1..] + b;
      RunAppend(a[1..], b, cfg, now);
      calc {
        Run(a + b, cfg, now);
        first + Run(a[1..] + b, cfg, now);
        first + (Run(a[1..], cfg, now) + Run(b, cfg, now));
        (first + Run(a[1..], cfg, now)) + Run(b, cfg, now);
      }
    }
  }

  /** A droplet without the tag contributes nothing: the run is the same as if
      it were not listed at all. */
  lemma UntaggedSkipped(a: seq<Droplet>, d: Droplet, b: seq<Droplet>, cfg: Config, now: DateTime)
    requires AgeSort(cfg.sort)
    requires InFieldRanges(now)
    requires cfg.tag !in d.tags
    ensures Run(a + [d] + b, cfg, now) == Run(a + b, cfg, now)
  {
    var ra := Run(a, cfg, now);
    assert Run([d], cfg, now) == [] by {
      assert [d][1..] == [];
    }
    assert Run(a + [d], cfg, now) == ra by {
      RunAppend(a, [d], cfg, now);
      assert ra + [] == ra;
    }
    RunAppend(a + [d], b, cfg, now);
    RunAppend(a, b, cfg, now);
  }

  /** A run where no droplet carries the tag issues and decides nothing. */
  lemma {:induction false} NoTaggedDropletNoEvents(droplets: seq<Droplet>, cfg: Config, now: DateTime)
    requires AgeSort(cfg.sort)
    requires InFieldRanges(now)
    requires forall d | d in droplets :: cfg.tag !in d.tags
    ensures Run(droplets, cfg, now) == []
  {
    if |droplets| > 0 {
      assert droplets[0] in droplets;
      NoTaggedDropletNoEvents(droplets[1..], cfg, now);
    }
  }

  /** Every droplet carrying the tag gets a snapshot of itself and of each
      attached volume, named by `snapshot_name`. */
  lemma TaggedDropletBackedUp(droplets: seq<Droplet>, i: int, cfg: Config, now: DateTime)
    requires AgeSort(cfg.sort)
    requires InFieldRanges(now)
    requires 0 <= i < |droplets| && cfg.tag in droplets[i].tags
    ensures
      var d := droplets[i];
      && Event(CreateDropletSnapshot(d.id, SnapshotName(d.name, now)), !cfg.dryRun) in Run(droplets, cfg, now)
      && forall v | v in d.volumes ::
           Event(CreateVolumeSnapshot(v.id, SnapshotName(v.name, now)), !cfg.dryRun) in Run(droplets, cfg, now)
  {
    var d := droplets[i];
    assert droplets == droplets[..i] + [d] + droplets[i + 1..];
    RunAppend(droplets[..i] + [d], droplets[i + 1..], cfg, now);
    RunAppend(droplets[..i], [d], cfg, now);
    assert Run([d], cfg, now) == DropletEvents(d, cfg, now) by {
      assert [d][1..] == [];
    }
    var c := CreateSnapshots(d, now, cfg.dryRun);
    assert forall e | e in c :: e in Run(droplets, cfg, now);
  }

  /** Every droplet carrying the tag is pruned: each snapshot the retention
      rule selects in its own listing or an attached volume's is deleted. */
  lemma TaggedDropletPruned(droplets: seq<Droplet>, i: int, cfg: Config, now: DateTime, l: seq<Snapshot>, s: Snapshot)
    requires AgeSort(cfg.sort)
    requires InFieldRanges(now)
    requires 0 <= i < |droplets| && cfg.tag in droplets[i].tags
    requires l in Listings(droplets[i]) && s in SelectForDeletion(cfg.sort, l, cfg.retain)
    ensures Event(DeleteSnapshot(s.id), !cfg.dryRun) in Run(droplets, cfg, now)
  {
    var d := droplets[i];
    assert droplets == droplets[..i] + [d] + droplets[i + 1..];
    RunAppend(droplets[..i] + [d], droplets[i + 1..], cfg, now);
    RunAppend(droplets[..i], [d], cfg, now);
    assert Run([d], cfg, now) == DropletEvents(d, cfg, now) by {
      assert [d][1..] == [];
    }
    assert Event(DeleteSnapshot(s.id), !cfg.dryRun) in DropletEvents(d, cfg, now);
  }

  /** Dry-run mode changes nothing but whether calls are issued: the calls
      decided are the same, in the same order. */
  lemma {:induction false} DryRunSameDecisions(droplets: seq<Droplet>, cfg: Config, now: DateTime)
    requires AgeSort(cfg.sort)
    requires InFieldRanges(now)
    ensures Actions(Run(droplets, cfg.(dryRun := true), now)) == Actions(Run(droplets, cfg.(dryRun := false), now))
  {
    if |droplets| > 0 {
      var dry, live := cfg.(dryRun := true), cfg.(dryRun := false);
      DryRunSameDecisions(droplets[1..], cfg, now);
      DropletSameDecisions(droplets[0], cfg, now);
      ActionsAppend(DropletEvents(droplets[0], dry, now), Run(droplets[1..], dry, now));
      ActionsAppend(DropletEvents(droplets[0], live, now), Run(droplets[1..], live, now));
    }
  }

  lemma DropletSameDecisions(d: Droplet, cfg: Config, now: DateTime)
    requires AgeSort(cfg.sort)
    requires InFieldRanges(now)
    ensures Actions(DropletEvents(d, cfg.(dryRun := true), now)) == Actions(DropletEvents(d, cfg.(dryRun := false), now))
  {
    var dry, live := cfg.(dryRun := true), cfg.(dryRun := false);
    if cfg.tag in d.tags {
      CreateSnapshotsSameDecisions(d, now);
      assert Actions(Cleanup(d, dry)) == Actions(Cleanup(d, live)) by {
        CleanupAllSameDecisions(Listings(d), cfg);
      }
      ActionsAppend(CreateSnapshots(d, now, true), Cleanup(d, dry));
      ActionsAppend(CreateSnapshots(d, now, false), Cleanup(d, live));
    }
  }

  lemma CreateSnapshotsSameDecisions(d: Droplet, now: DateTime)
    requires InFieldRanges(now)
    ensures Actions(CreateSnapshots(d, now, true)) == Actions(CreateSnapshots(d, now, false))
  {
    var create := CreateDropletSnapshot(d.id, SnapshotName(d.name, now));
    VolumeSnapshotsSameDecisions(d.volumes, now);
    ActionsCons(Event(create, false), Event(create, true), VolumeSnapshots(d.volumes, now, true), VolumeSnapshots(d.volumes, now, false));
  }

  lemma {:induction false} VolumeSnapshotsSameDecisions(vs: seq<Volume>, now: DateTime)
    requires InFieldRanges(now)
    ensures Actions(VolumeSnapshots(vs, now, true)) == Actions(VolumeSnapshots(vs, now, false))
  {
    if |vs| > 0 {
      VolumeSnapshotsSameDecisions(vs[1..], now);
      ActionsCons(VolumeSnapshot(vs[0], now, true), VolumeSnapshot(vs[0], now, false),
        VolumeSnapshots(vs[1..], now, true), VolumeSnapshots(vs[1..], now, false));
    }
  }

  /** Traces that start with the same call and go on with the same calls
      decide the same calls. */
  lemma ActionsCons(x: Event, y: Event, a: seq<Event>, b: seq<Event>)
    requires x.action == y.action && Actions(a) == Actions(b)
    ensures Actions([x] + a) == Actions([y] + b)
  {
    ActionsAppend([x], a);
    ActionsAppend([y], b);
  }

  lemma {:induction false} CleanupAllSameDecisions(ls: seq<seq<Snapshot>>, cfg: Config)
    requires AgeSort(cfg.sort)
    ensures Actions(CleanupAll(ls, cfg.(dryRun := true))) == Actions(CleanupAll(ls, cfg.(dryRun := false)))
  {
    if |ls| > 0 {
      var dry, live := cfg.(dryRun := true), cfg.(dryRun := false);
      CleanupAllSameDecisions(ls[1..], cfg);
      assert Actions(CleanupHelper(ls[0], dry)) == Actions(CleanupHelper(ls[0], live));
      ActionsAppend(CleanupHelper(ls[0], dry), CleanupAll(ls[1..], dry));
      ActionsAppend(CleanupHelper(ls[0], live), CleanupAll(ls[1..], live));
    }
  }

  lemma ActionsAppend(a: seq<Event>, b: seq<Event>)
    ensures Actions(a + b) == Actions(a) + Actions(b)
  {
  }

  /** In dry-run mode no call reaches the provider; otherwise every decided
      call does. */
  lemma DryRunIssuesNothing(droplets: seq<Droplet>, cfg: Config, now: DateTime)
    requires AgeSort(cfg.sort)
    requires InFieldRanges(now)
    ensures cfg.dryRun ==> Calls(Run(droplets, cfg, now)) == []
    ensures !cfg.dryRun ==> Calls(Run(droplets, cfg, now)) == Actions(Run(droplets, cfg, now))
  {
    var r := Run(droplets, cfg, now);
    CallsUniform(r, !cfg.dryRun);
  }

  lemma {:induction false} CallsUniform(trace: seq<Event>, issued: bool)
    requires forall e | e in trace :: e.issued == issued
    ensures Calls(trace) == if issued then Actions(trace) else []
  {
    if |trace| > 0 {
      assert trace[0] in trace;
      CallsUniform(trace[1..], issued);
      assert trace == [trace[0]] + trace[1..];
      ActionsAppend([trace[0]], trace[1..]);
    }
  }

  /** Ids of distinct listings never coincide. */
  ghost predicate DisjointIds(ls: seq<seq<Snapshot>>) {
    forall i, j | 0 <= i < j < |ls| :: IdSet(ls[i]) !! IdSet(ls[j])
  }

  lemma DeletedIdsAppend(a: seq<Event>, b: seq<Event>)
    ensures DeletedIds(a + b) == DeletedIds(a) + DeletedIds(b)
  {
  }

  lemma CleanupHelperIds(l: seq<Snapshot>, cfg: Config)
    requires AgeSort(cfg.sort)
    ensures DeletedIds(CleanupHelper(l, cfg)) == IdSet(SelectForDeletion(cfg.sort, l, cfg.retain))
    ensures IdSet(SelectForDeletion(cfg.sort, l, cfg.retain)) <= IdSet(l)
  {
    var d := SelectForDeletion(cfg.sort, l, cfg.retain);
    var h := CleanupHelper(l, cfg);
    forall id | id in IdSet(d)
      ensures id in DeletedIds(h)
    {
      var s :| s in d && s.id == id;
      var k :| 0 <= k < |d| && d[k] == s;
      assert h[k] in h;
    }
    forall id | id in DeletedIds(h)
      ensures id in IdSet(d)
    {
      var e :| e in h && e.action.DeleteSnapshot? && e.action.snapshot == id;
      var k :| 0 <= k < |h| && h[k] == e;
      assert d[k] in d;
    }
  }

  /** Everything pruned over a run of listings is an id of one of them. */
  lemma {:induction false} CleanupAllIdsWithin(ls: seq<seq<Snapshot>>, cfg: Config, other: set<SnapshotId>)
    requires AgeSort(cfg.sort)
    requires forall j | 0 <= j < |ls| :: IdSet(ls[j]) !! other
    ensures DeletedIds(CleanupAll(ls, cfg)) !! other
  {
    if |ls| > 0 {
      CleanupHelperIds(ls[0], cfg);
      CleanupAllIdsWithin(ls[1..], cfg, other);
      DeletedIdsAppend(CleanupHelper(ls[0], cfg), CleanupAll(ls[1..], cfg));
    }
  }

  /** Each listing is pruned against its own window: when the listings' ids are
      disjoint, the ids deleted from listing k are exactly those the retention
      rule selects in listing k alone. */
  lemma {:induction false} OwnWindow(ls: seq<seq<Snapshot>>, cfg: Config, k: int)
    requires AgeSort(cfg.sort)
    requires DisjointIds(ls) && 0 <= k < |ls|
    ensures DeletedIds(CleanupAll(ls, cfg)) * IdSet(ls[k]) == IdSet(SelectForDeletion(cfg.sort, ls[k], cfg.retain))
  {
    var head, tail := CleanupHelper(ls[0], cfg), CleanupAll(ls[1..], cfg);
    DeletedIdsAppend(head, tail);
    CleanupHelperIds(ls[0], cfg);
    if k == 0 {
      CleanupAllIdsWithin(ls[1..], cfg, IdSet(ls[0]));
    } else {
      assert DisjointIds(ls[1..]) by {
        forall i, j | 0 <= i < j < |ls| - 1
          ensures IdSet(ls[1..][i]) !! IdSet(ls[1..][j])
        {
          assert ls[1..][i] == ls[i + 1] && ls[1..][j] == ls[j + 1];
        }
      }
      OwnWindow(ls[1..], cfg, k - 1);
      assert ls[1..][k - 1] == ls[k];
      assert IdSet(ls[0]) !! IdSet(ls[k]);
    }
  }

  /** The droplet and each attached volume keep their own window of N. */
  lemma CleanupOwnWindow(d: Droplet, cfg: Config, k: int)
    requires AgeSort(cfg.sort)
    requires DisjointIds(Listings(d)) && 0 <= k < |Listings(d)|
    ensures DeletedIds(Cleanup(d, cfg)) * IdSet(Listings(d)[k]) == IdSet(SelectForDeletion(cfg.sort, Listings(d)[k], cfg.retain))
  {
    OwnWindow(Listings(d), cfg, k);
  }
}
